=== FILE: README.md ===
# Storefront client logic in Dafny

A model of the few pieces of a single-page storefront client (TypeScript,
on a commerce platform's SDK) that make decisions, rather than draw DOM:

- **Hash routing** (`Router`): the route string after `#`, plus whether a
  registration marker is stored, picks the page to render and an optional
  navigation. `product/<id>` and `category/<id>` are matched by patterns
  and their id is cut out with `split('/')[1]`.
- **Login field checks** (`LoginValidation`): the e-mail pattern
  `^[^\s@]+@[^\s@]+\.[^\s@]+$`, the password pattern
  `[A-Za-z\d\-!@#$%^&*]{8,}$` (anchored at the end only), both applied to
  the trimmed input, and the custom-validity message they choose.
- **Catalog page** (`Catalog`): the number of pagination links
  (`ceil(total / 9)`), the add-or-remove decision of the cart button
  (read from the first active cart only), restoring the "remove" label of
  products already in the cart, and the `#product/<id>` hash a card click
  sets.
- **Home page offers** (`HomeDeals`): the products whose first price is
  discounted, in search order.
- **Cart creation** (`CustomerCart`): `handleCartCreation` as a function of
  explicit state: the stored access token, the platform's active carts
  keyed by the Authorization header, the behaviour of the authorization
  helper, and which remote call fails.

Supporting modules: `Wrappers` (`Option`, `Result`), `Commerce` (carts and
line items), `Text` (JavaScript's whitespace class, `trim`, `split`, and
the decimal text of page numbers).

Modelling choices:

- The route strings of the fixed pages come from an enumeration that is not
  part of this model. They are a `PageIds` record. `PageIds.Valid()` asks
  that they are pairwise different and match neither dynamic pattern. The
  dispatcher itself tests them in the `switch` order, first equal case
  first, so it is defined for every record.
- `location.href = '#'` and `location.replace('#' + login)` are kept apart
  as `AssignHref` and `ReplaceLocation`.
- The e-mail check is the state machine the pattern compiles to
  (`EmailRun`). It is proved equal to the pattern's language, written as
  "a + `@` + b + `.` + c".
- The password check compares the longest trailing run of class characters
  with 8. This is proved equal to "some suffix of at least eight class
  characters".
- `find` in the cart toggle assigns `lineItemId = item.id` inside its
  callback, for every item it visits. `FindTracking` models that side
  effect as written and proves that the id sent with a removal is the first
  matching line item's id.
- In the home page, `prices && prices[0].discounted` throws for a present
  but empty price list. The error skips the rendering step, so nothing is
  shown at all. This is an `Err` result.
- In `handleCartCreation`, the token step is the expiry check when a token
  is stored and token creation otherwise. Its effect is a parameter
  (`Authorization`), because the helper's code is not part of this model.

## Model

| member | source | states |
|---|---|---|
| Text.Trim | src/pages/login-page/LoginPage.ts:69 | `trim()` returns a core whose ends are not whitespace, with only JavaScript whitespace (`\s`) removed before and after it |
| Text.TrimUnique | src/pages/login-page/LoginPage.ts:80 | whatever non-whitespace-ended core an input is padded around, `trim()` returns exactly that core |
| Text.TrimPadded | src/pages/login-page/LoginPage.ts:69-70 | whitespace around an already trimmed value is all that trimming removes |
| Text.TrimIgnoresPadding | src/pages/login-page/LoginPage.ts:69 | whitespace added before and after any value leaves its trimmed form unchanged |
| Text.Split | src/utils/Router.ts:65 | `split('/')` yields at least one piece; no piece contains the separator; joining the pieces with the separator rebuilds the input; there is more than one piece iff the input contains the separator |
| Text.SplitWithoutSeparator | src/utils/Router.ts:68 | a string without the separator splits into itself alone |
| Text.SplitAtFirst | src/utils/Router.ts:65 | splitting `a + "/" + b`, with no `/` in `a`, gives `a` followed by the pieces of `b` |
| Text.SplitJoin | src/utils/Router.ts:68 | splitting undoes joining whenever no piece contains the separator |
| Text.ShowNat | src/pages/catalog-page/CatalogPage.ts:132 | the label `${i}` of a page link is a non-empty string of decimal digits with no leading zero |
| Text.ParseShowNat | src/pages/catalog-page/CatalogPage.ts:109-112 | `Number` of a page link's label gives back the page number the label was written from |
| Router.Route | src/utils/Router.ts:18-80 | only login and registration (when registered, toward the home page) and my-profile (when not registered, toward the login page) navigate; the profile page is shown only when registered; details and category pages only for routes matching their pattern |
| Router.RouteOfHash | src/utils/Router.ts:82-85 | the route handled is the hash with its first character removed, and the empty route for the empty hash |
| Router.HandleHashChange | src/utils/Router.ts:82-85 | when the hash opens product details or a category, the hash is one leading character, then `product/` or `category/`, then the rendered id |
| Router.RouteStaticPages | src/utils/Router.ts:26-62 | the home, catalog, cart and about-us routes render their own page with no navigation, whatever the registration state |
| Router.RouteGuardedPages | src/utils/Router.ts:30-56 | login and registration render the home page with a jump to `#` when the marker is stored, else their own page; my-profile renders the profile page when the marker is stored, else the login page and replaces the address with `#` + the login route |
| Router.ProfileRedirectSettles | src/utils/Router.ts:49-56 | following the profile page's redirect while not registered lands on the login page with no further navigation |
| Router.SecondSegmentAfterPrefix | src/utils/Router.ts:65 | `split('/')[1]` of `prefix + "/" + id` is `id` when neither contains `/` |
| Router.ProductRouteOfId | src/utils/Router.ts:20 | `product/` + a non-empty id over `[\w-]` matches the product pattern |
| Router.CategoryRouteOfId | src/utils/Router.ts:20-21 | `category/` + a non-empty id over `[a-f0-9-]` matches the category pattern and not the product pattern |
| Router.ProductRouteOpensDetails | src/utils/Router.ts:64-66 | `product/<id>` with a non-empty id over `[\w-]` renders the details of exactly that id, with no navigation |
| Router.CategoryRouteOpensCategory | src/utils/Router.ts:67-69 | `category/<id>` with a non-empty id over lower-case `[a-f0-9-]` renders exactly that category, with no navigation |
| Router.ProductIdOfRoute | src/utils/Router.ts:20 | the id cut from a route matching the product pattern is non-empty, over `[\w-]`, free of `/`, and `product/` + id is the route |
| Router.CategoryIdOfRoute | src/utils/Router.ts:21 | the id cut from a route matching the category pattern is non-empty, over `[a-f0-9-]`, free of `/`, and `category/` + id is the route |
| Router.ProductRouteRoundTrip | src/utils/Router.ts:64-66 | whenever the dispatcher renders product details, the id it extracted rebuilds the route as `product/` + id and contains no `/` |
| Router.CategoryRouteRoundTrip | src/utils/Router.ts:67-69 | whenever the dispatcher renders a category, the id it extracted rebuilds the route as `category/` + id and contains no `/` |
| Router.NotFoundExactly | src/utils/Router.ts:63-73 | the not-found page is rendered iff the route is no fixed route and matches neither dynamic pattern |
| Router.UpperCaseCategoryIdRejected | src/utils/Router.ts:21 | one upper-case letter in a category id makes the route miss the category pattern |
| LoginValidation.EmailRunAccepts | src/pages/login-page/LoginPage.ts:34 | the pattern's state machine, from any state, reaches the accepting state iff the rest of the input is what that state still expects |
| LoginValidation.EmailPatternIsAddress | src/pages/login-page/LoginPage.ts:34 | the split form of the pattern equals "an `@` after a non-empty local part, then a domain with a dot that is neither first nor last" |
| LoginValidation.ValidateEmail | src/pages/login-page/LoginPage.ts:33-36 | `validateEmail` is true iff the input matches the pattern's language (a + `@` + b + `.` + c with non-empty parts free of whitespace and `@`) |
| LoginValidation.EmailFromParts | src/pages/login-page/LoginPage.ts:34 | every a + `@` + b + `.` + c with non-empty parts free of whitespace and `@` is accepted |
| LoginValidation.EmailToParts | src/pages/login-page/LoginPage.ts:34 | every accepted address is such an a + `@` + b + `.` + c |
| LoginValidation.AcceptedEmailShape | src/pages/login-page/LoginPage.ts:34 | an accepted address has exactly one `@` and no whitespace character |
| LoginValidation.TrailingPasswordRun | src/pages/login-page/LoginPage.ts:39 | the computed run is the longest suffix made only of `[A-Za-z\d\-!@#$%^&*]` characters |
| LoginValidation.ValidatePassword | src/pages/login-page/LoginPage.ts:38-41 | `validatePassword` is true iff some suffix of at least 8 characters consists of class characters only (the pattern has no `^`); shorter inputs are rejected |
| LoginValidation.PrefixKeepsTrailingRun | src/pages/login-page/LoginPage.ts:39 | putting characters before a password never shortens its trailing run of class characters |
| LoginValidation.PrefixKeepsPasswordValid | src/pages/login-page/LoginPage.ts:39 | putting any characters before an accepted password keeps it accepted |
| LoginValidation.EightClassCharsAccepted | src/pages/login-page/LoginPage.ts:39 | any eight class characters (digits alone included) are accepted, whatever characters stand before them |
| LoginValidation.TrailingNonClassRejected | src/pages/login-page/LoginPage.ts:38-41 | the pattern is anchored at the end: any input whose last character is outside `[A-Za-z\d\-!@#$%^&*]` fails, whatever precedes it |
| LoginValidation.CustomValidity | src/pages/login-page/LoginPage.ts:65-92 | the custom-validity message is empty iff the trimmed value matches the field's pattern, and otherwise is the field's error text |
| LoginValidation.PaddingIgnored | src/pages/login-page/LoginPage.ts:69-73 | whitespace typed before or after a value never changes the field's message |
| Catalog.FillProductCatalog | src/pages/catalog-page/CatalogPage.ts:87-90 | every request asks for nine products; an explicit page is requested as given; page 1 is requested iff no page or page 1 was given |
| Catalog.PageCount | src/pages/catalog-page/CatalogPage.ts:130 | the link count is the least number of 9-product pages that hold the total; a missing or zero total gives no links |
| Catalog.GenerateProductPages | src/pages/catalog-page/CatalogPage.ts:124-138 | when the page-count query answers, one link per page, labelled 1, 2, ... up to the page count, in increasing order; when it rejects, no link |
| Catalog.PageLinksCoverCatalog | src/pages/catalog-page/CatalogPage.ts:87-112 | clicking link k queries page k with 9 products; every product index lies on a linked page; no linked page is empty; the first render queries the first link's page |
| Catalog.FindTracking | src/pages/catalog-page/CatalogPage.ts:160-163 | `find` returns the first line item of the product, if any, and the id its callback last assigned is that item's id |
| Catalog.AddToCartToggle | src/pages/catalog-page/CatalogPage.ts:140-190 | with a listing, the click removes the first matching line item of the first cart by its id, or adds the product when no line item matches or there is no cart; a rejected listing sends nothing |
| Catalog.ToggleReadsOnlyFirstCart | src/pages/catalog-page/CatalogPage.ts:160 | carts after the first never change the toggle or the collected product ids |
| Catalog.PushProductIds | src/pages/catalog-page/CatalogPage.ts:199-201 | the `forEach`/`push` keeps what was already pushed and appends each line item's product id, in line-item order |
| Catalog.CartProductIds | src/pages/catalog-page/CatalogPage.ts:196-201 | the collected ids are those of the first cart's line items, in order, and none when the listing failed |
| Catalog.RestoreButtonState | src/pages/catalog-page/CatalogPage.ts:192-217 | a card's button shows "remove" afterwards iff it did before or the card's product is in the first cart; marking never clears |
| Catalog.RestoreIdempotent | src/pages/catalog-page/CatalogPage.ts:203-212 | restoring twice gives the same buttons as restoring once |
| Catalog.MarkingAgreesWithToggle | src/pages/catalog-page/CatalogPage.ts:160-167 | a product is marked as in the cart iff clicking its button would remove it |
| Catalog.ToggleFlipsButton | src/pages/catalog-page/CatalogPage.ts:168-182 | after a successful toggle the button shows "remove" iff the product was not in the first cart before the click |
| Catalog.FreshCartToggleAdds | src/pages/catalog-page/CatalogPage.ts:147-178 | right after cart creation made a cart, the first listed cart is that empty cart, so the click adds the product |
| Catalog.OnProductClick | src/pages/catalog-page/CatalogPage.ts:219-242 | a cart button with a non-empty `data-product-id` starts the toggle for exactly that id; any other click on a card sets a hash whose route is `product/` + the card's id; other clicks do nothing |
| Catalog.ProductCardOpensItsDetails | src/pages/catalog-page/CatalogPage.ts:237-239 | the hash a card click sets, routed through the hash handler, renders that product's details whenever its id is over `[\w-]` |
| Catalog.CategoryLinkOpensCategory | src/pages/catalog-page/CatalogPage.ts:261 | a category link, routed through the hash handler, renders that category whenever the type id is lower-case hex with dashes |
| HomeDeals.SpecialDealsFrom | src/pages/home-page/HomePage.ts:27-31 | the filter fails iff some product has a present but empty price list, and reports the first one; otherwise it keeps exactly the products whose first price is discounted, as a subsequence of the input |
| HomeDeals.SpecialOffersShown | src/pages/home-page/HomePage.ts:22-41 | one empty price list anywhere shows no offers; otherwise the offers shown are exactly the plain filter of products whose first price is discounted |
| HomeDeals.HomePageSpecialDeals | src/pages/home-page/HomePage.ts:22-41 | a rejected product search shows no offers; an answered one with an empty price list anywhere shows none either; otherwise exactly the plain filter of products whose first price is discounted is shown |
| HomeDeals.OffersAreOrderedDeals | src/pages/home-page/HomePage.ts:22-41 | with no empty price list, the offers shown are an order-preserving subsequence of the search results, no longer than them, and a product is shown iff its first price is discounted |
| HomeDeals.EmptyPriceListHidesAllOffers | src/pages/home-page/HomePage.ts:28 | one empty price list makes the filter fail and hides every offer, also those before it |
| HomeDeals.MissingPricesSkipped | src/pages/home-page/HomePage.ts:28 | a product without a `prices` field is skipped, not an error |
| HomeDeals.DealsFromIsFilter | src/pages/home-page/HomePage.ts:27-31 | when the loop finishes, its result is the plain filter of the products whose first price is discounted |
| HomeDeals.DealsInConcat | src/pages/home-page/HomePage.ts:27-31 | the plain filter of two concatenated lists is the filter of the first followed by the filter of the second |
| HomeDeals.DealsConcat | src/pages/home-page/HomePage.ts:27-31 | the offers of two concatenated result lists are the offers of the first followed by those of the second |
| CustomerCart.TokenStep | src/backend/cart/CustomerCart.ts:58-62 | with a token stored only the expiry check can fail the step, without one only token creation; a stored token is never removed; storage changes only to a token the helper stored (given a helper that never deletes the token) |
| CustomerCart.CreateCart | src/backend/cart/CustomerCart.ts:20-38 | a created cart is empty, in USD, listed after the header's earlier carts, and no other header's carts change; a failed post changes nothing |
| CustomerCart.HandleCartCreation | src/backend/cart/CustomerCart.ts:57-71 | a failed token step makes no call and changes nothing; otherwise storage holds the token step's result and the first call is always the listing with that token, possibly followed by one post; a cart is posted iff the listing succeeded and was empty; a run without a post leaves the platform unchanged; no other header's carts ever change; success leaves a non-empty listing, and a run that created a cart leaves exactly that empty USD cart with the new id; a rejection reports the first failing step (token, listing, then creation) and leaves the platform unchanged |
| CustomerCart.TokenBranchByStorage | src/backend/cart/CustomerCart.ts:58-62 | with a stored token only the expiry check matters, without one only token creation matters, and a created token is what storage then holds |
| CustomerCart.HandleCartCreationIdempotent | src/backend/cart/CustomerCart.ts:64-70 | a second run that keeps the token after a successful first run posts no cart and changes nothing |
| CustomerCart.CreatedCartIsFirstActive | src/backend/cart/CustomerCart.ts:67-70 | the cart a run creates is then the shopper's only active cart: empty, in USD, with the new id |

## Left out

- CustomerCart.GetMyActiveCart: the platform listing behind
  `getMyActiveCart` is an abstraction. It returns the carts the `Remote`
  map holds for the Authorization header, or fails when `Faults` says so.
  The SDK request itself is not part of this model. Because carts are keyed
  by the header, a run that stores a new token sees no carts and would post
  another one; this is why `HandleCartCreationIdempotent` requires the
  token to be kept.
- CustomerCart.AuthorizationHeader: a token missing from storage gives the
  header text `null`. This assumes the storage helper returns `null` for a
  missing key; that helper is not part of this model.
- The DOM work: markup strings, event listeners, toasts and button colours.
- Catalog.PageLinksCoverCatalog: assumes the click listeners are attached.
  The page attaches them once, 500 ms after rendering, and only to the page
  links that exist by then. If the page-count query answers later, or the
  total is 0, there is no `.page-1` link. Marking it active then throws, so
  no link ever gets a listener. This timing is not modelled.
- CustomerCart.TokenStep: assumes the authorization helper either fails,
  keeps the stored token, or stores a new one, and never deletes the token.
  The helper's code is not part of this model. The promises that a stored
  token is never removed, and that storage changes only to a token the
  helper stored, rest on this assumption.
- The promise plumbing. The rejections that are modelled are an `Err`
  result, an `Option` `None` (the cart listing, the page-count query, the
  home page's product search) or a `Rejected` outcome. The rejection of
  the product-list query in `fillProductCatalog` is not modelled: it only
  leaves the card container empty and skips restoring the buttons of cards
  that were never drawn.
- `addCartItem`, `removeCartItem` and `getCartInformation` are not part of
  this model. The toggle ends in the `AddCartItem` or `RemoveCartItem` it
  would send.
- `buildPriceContainer`, `getProductPrice` and `getProductDiscountedPrice`
  are not part of this model.
- The authorization helper (`checkTokenExpirationDate`,
  `saveTokenInLocalStorage`) is not part of this model. Its effect on the
  stored token is the `Authorization` parameter.
- The SDK request builders behind `createCart` and `getMyActiveCart`, the
  product search and the customer sign-in. These are network calls; the
  platform is the `Remote` map and the `Faults` parameter.
- Which product offset the platform serves for a page number. The product
  query code is not part of this model, so page k is assumed to hold
  products 9(k-1) to 9k-1.
- The concrete route strings of the fixed pages. They are a parameter; see
  `PageIds.Valid()`.
- The password field's lock-icon toggle, which only switches the input
  between `password` and `text`. This is presentation.
- The page template classes, the navigation bar and the application entry
  point. These are presentation only.
- `Math.ceil` on floating-point numbers. It is integer ceiling division over
  naturals, which agrees for totals below 2^53.
- JavaScript strings are UTF-16 code units; the model uses Unicode
  characters. The patterns here only name characters below U+FFFF.
- The browser percent-encodes some characters when a hash is set. The
  round-trip lemmas only cover ids over `[\w-]` and lower-case hex, which
  are never encoded.
- Catalog.ToggleFlipsButton: states the label only after the request
  succeeded; a failed add or remove leaves the button as it was, which is
  not modelled.

=== FILE: catalog.dfy ===
/** The catalog page's decisions: pagination, the add/remove cart toggle,
    restoring the buttons of products already in the cart, and navigating
    to a product's details. */
module Catalog {
  import opened Wrappers
  import opened Commerce
  import Text
  import Router
  import CustomerCart

  // ---------------------------------------------------------------------
  // Pagination
  // ---------------------------------------------------------------------

  const ProductsPerPage: nat := 9
  const FirstPage: nat := 1

  /** The product-list request `queryProductList(page, limit)`. */
  datatype ProductListQuery = ProductListQuery(page: nat, limit: nat)

  /** `fillProductCatalog(page = 1)`: nine products of the requested page. */
  function FillProductCatalog(page: Option<nat>): (q: ProductListQuery)
    ensures q.limit == ProductsPerPage
    ensures page.Some? ==> q.page == page.value
    ensures q.page == FirstPage <==> page.None? || page.value == FirstPage
  {
    ProductListQuery(if page.Some? then page.value else FirstPage, ProductsPerPage)
  }

  /** `products.total || 0`: a missing total counts as no products. */
  function TotalOrZero(total: Option<nat>): nat {
    if total.Some? then total.value else 0
  }

  /** `Math.ceil(total / 9)`: the fewest pages of nine that hold every
      product. */
  function PageCount(total: Option<nat>): (pages: nat)
    ensures pages * ProductsPerPage >= TotalOrZero(total)
    ensures pages == 0 || (pages - 1) * ProductsPerPage < TotalOrZero(total)
    ensures pages == 0 <==> TotalOrZero(total) == 0
  {
    (TotalOrZero(total) + ProductsPerPage - 1) / ProductsPerPage
  }

  /** `generateProductPages`: one link per page, labelled 1, 2, ... in
      order. `response` is the page-count query's answer, the product total
      if it has one, or `None` when the query rejects; the `.catch` then
      creates no link. */
  method GenerateProductPages(response: Option<Option<nat>>) returns (labels: seq<string>)
    ensures response.None? ==> labels == []
    ensures response.Some? ==> |labels| == PageCount(response.value)
    ensures forall k :: 0 <= k < |labels| ==> labels[k] == Text.ShowNat(k + 1)
  {
    labels := [];
    if response.None? {
      return;
    }
    var pages := PageCount(response.value);
    var i := 1;
    while i <= pages
      invariant 1 <= i <= pages + 1
      invariant |labels| == i - 1
      invariant forall k :: 0 <= k < |labels| ==> labels[k] == Text.ShowNat(k + 1)
    {
      labels := labels + [Text.ShowNat(i)];
      i := i + 1;
    }
  }

  /** Clicking the link labelled for page `k + 1` asks for exactly that page
      of nine; every product index lies on some linked page; no linked page
      is empty; and the first render shows the page of the first link. */
  lemma PageLinksCoverCatalog(total: Option<nat>, labels: seq<string>)
    requires |labels| == PageCount(total)
    requires forall k :: 0 <= k < |labels| ==> labels[k] == Text.ShowNat(k + 1)
    ensures forall k :: 0 <= k < |labels| ==>
      Text.AllDigits(labels[k]) && FillProductCatalog(Some(Text.ParseDigits(labels[k]))) == ProductListQuery(k + 1, ProductsPerPage)
    ensures forall n :: 0 <= n < TotalOrZero(total) ==> n / ProductsPerPage < |labels|
    ensures forall k :: 0 <= k < |labels| ==> k * ProductsPerPage < TotalOrZero(total)
    ensures |labels| > 0 ==> FillProductCatalog(None) == FillProductCatalog(Some(Text.ParseDigits(labels[0])))
  {
    forall k | 0 <= k < |labels|
      ensures Text.AllDigits(labels[k]) && Text.ParseDigits(labels[k]) == k + 1
    {
      Text.ParseShowNat(k + 1);
    }
    forall k | 0 <= k < |labels|
      ensures k * ProductsPerPage < TotalOrZero(total)
    {
      assert k * ProductsPerPage <= (|labels| - 1) * ProductsPerPage;
    }
  }

  // ---------------------------------------------------------------------
  // Add-to-cart toggle
  // ---------------------------------------------------------------------

  /** The cart request the toggle issues (both are not part of this model
      beyond their arguments). */
  datatype CartAction = AddCartItem(cartId: string, productId: string) | RemoveCartItem(cartId: string, lineItemId: string)

  /** `response?.results[0]?.lineItems`, with no items when there is no
      first cart. */
  function FirstCartLines(results: seq<Cart>): seq<LineItem> {
    if |results| == 0 then [] else results[0].lineItems
  }

  /** Index `k` holds the first line item of `productId`. */
  predicate IsFirstMatch(items: seq<LineItem>, productId: string, k: int) {
    && 0 <= k < |items|
    && items[k].productId == productId
    && forall m :: 0 <= m < k ==> items[m].productId != productId
  }

  /** `lineItems.find(...)` whose callback also assigns `lineItemId = item.id`
      for every item it visits: the item found, and the last id assigned
      (or `lineItemId` unchanged when nothing is visited). */
  function FindTracking(items: seq<LineItem>, productId: string, lineItemId: string): (r: (Option<LineItem>, string))
    ensures r.0.None? <==> forall k :: 0 <= k < |items| ==> items[k].productId != productId
    ensures r.0.Some? ==> exists k :: IsFirstMatch(items, productId, k) && r.0.value == items[k] && r.1 == items[k].id
    ensures r.0.None? && |items| > 0 ==> r.1 == items[|items| - 1].id
    ensures |items| == 0 ==> r.1 == lineItemId
  {
    if |items| == 0 then (None, lineItemId)
    else if items[0].productId == productId then (Some(items[0]), items[0].id)
    else
      var r := FindTracking(items[1..], productId, items[0].id);
      assert forall k :: 1 <= k < |items| ==> items[k] == items[1..][k - 1];
      FirstMatchShift(items, productId, r);
      r
  }

  /** A first match in the tail, behind a non-matching head, is a first
      match one index further on. */
  lemma FirstMatchShift(items: seq<LineItem>, productId: string, r: (Option<LineItem>, string))
    requires |items| > 0 && items[0].productId != productId
    requires r.0.Some? ==> exists k :: IsFirstMatch(items[1..], productId, k) && r.0.value == items[1..][k] && r.1 == items[1..][k].id
    ensures r.0.Some? ==> exists k :: IsFirstMatch(items, productId, k) && r.0.value == items[k] && r.1 == items[k].id
  {
    if r.0.Some? {
      var k :| IsFirstMatch(items[1..], productId, k) && r.0.value == items[1..][k] && r.1 == items[1..][k].id;
      assert IsFirstMatch(items, productId, k + 1);
    }
  }

  /** `onAddToCartButtonClick`: with the active-cart listing (`None` when the
      request was rejected, in which case nothing is sent), remove the first
      line item of the product from the first cart when there is one, and
      add the product otherwise. */
  function AddToCartToggle(productId: string, cartId: string, response: Option<seq<Cart>>): (a: Option<CartAction>)
    ensures response.None? <==> a.None?
    ensures a.Some? && a.value.AddCartItem? ==>
      a.value == AddCartItem(cartId, productId)
      && forall k :: 0 <= k < |FirstCartLines(response.value)| ==> FirstCartLines(response.value)[k].productId != productId
    ensures a.Some? && a.value.RemoveCartItem? ==>
      a.value.cartId == cartId
      && exists k :: IsFirstMatch(FirstCartLines(response.value), productId, k)
                     && a.value.lineItemId == FirstCartLines(response.value)[k].id
  {
    match response
    case None => None
    case Some(results) =>
      var (lineItem, lineItemId) := FindTracking(FirstCartLines(results), productId, "");
      if lineItem.Some? then Some(RemoveCartItem(cartId, lineItemId)) else Some(AddCartItem(cartId, productId))
  }

  /** Only the first cart of the listing is consulted. */
  lemma ToggleReadsOnlyFirstCart(productId: string, cartId: string, first: Cart, rest: seq<Cart>)
    ensures AddToCartToggle(productId, cartId, Some([first] + rest)) == AddToCartToggle(productId, cartId, Some([first]))
    ensures CartProductIds(Some([first] + rest)) == CartProductIds(Some([first]))
  {
  }

  // ---------------------------------------------------------------------
  // Restoring button state
  // ---------------------------------------------------------------------

  /** What a product's cart button shows. */
  datatype CartButton = ShowsAdd | ShowsRemove

  /** The `forEach` over the first cart's line items: push each item's
      product id onto `pushed`, in order. */
  function PushProductIds(lines: seq<LineItem>, pushed: seq<string>): (ids: seq<string>)
    ensures |ids| == |pushed| + |lines|
    ensures ids[..|pushed|] == pushed
    ensures forall k :: 0 <= k < |lines| ==> ids[|pushed| + k] == lines[k].productId
    decreases |lines|
  {
    if |lines| == 0 then pushed
    else
      var ids := PushProductIds(lines[1..], pushed + [lines[0].productId]);
      assert forall k :: 1 <= k < |lines| ==> lines[k] == lines[1..][k - 1];
      ids
  }

  /** The product ids `restoreButtonState` collects: those of the first
      cart's line items, in order (none when the listing failed). */
  function CartProductIds(response: Option<seq<Cart>>): (ids: seq<string>)
    ensures response.None? ==> ids == []
    ensures response.Some? ==>
      |ids| == |FirstCartLines(response.value)|
      && forall k :: 0 <= k < |ids| ==> ids[k] == FirstCartLines(response.value)[k].productId
  {
    match response
    case None => []
    case Some(results) => PushProductIds(FirstCartLines(results), [])
  }

  /** `restoreButtonState`: each product card whose id is in the first cart
      is switched to "remove"; every other button is left as it was. */
  function RestoreButtonState(cardIds: seq<string>, buttons: seq<CartButton>, response: Option<seq<Cart>>): (after: seq<CartButton>)
    requires |buttons| == |cardIds|
    ensures |after| == |buttons|
    ensures forall k :: 0 <= k < |after| ==>
      (after[k] == ShowsRemove <==> buttons[k] == ShowsRemove || cardIds[k] in CartProductIds(response))
    ensures forall k :: 0 <= k < |after| && buttons[k] == ShowsRemove ==> after[k] == ShowsRemove
  {
    var ids := CartProductIds(response);
    seq(|buttons|, k requires 0 <= k < |buttons| => if cardIds[k] in ids then ShowsRemove else buttons[k])
  }

  /** Restoring twice is restoring once. */
  lemma RestoreIdempotent(cardIds: seq<string>, buttons: seq<CartButton>, response: Option<seq<Cart>>)
    requires |buttons| == |cardIds|
    ensures RestoreButtonState(cardIds, RestoreButtonState(cardIds, buttons, response), response)
         == RestoreButtonState(cardIds, buttons, response)
  {
  }

  /** The button restore and the toggle agree: a product is marked as in the
      cart exactly when clicking it would remove it. */
  lemma MarkingAgreesWithToggle(productId: string, cartId: string, results: seq<Cart>)
    ensures (productId in CartProductIds(Some(results)))
        <==> AddToCartToggle(productId, cartId, Some(results)).value.RemoveCartItem?
  {
    var ids := CartProductIds(Some(results));
    var lines := FirstCartLines(results);
    var a := AddToCartToggle(productId, cartId, Some(results));
    if productId in ids {
      var k :| 0 <= k < |ids| && ids[k] == productId;
      assert lines[k].productId == productId;
    }
    if a.value.RemoveCartItem? {
      var k :| IsFirstMatch(lines, productId, k) && a.value.lineItemId == lines[k].id;
      assert ids[k] == productId;
    }
  }

  /** The label a successful toggle leaves on the button: "remove" after an
      add, "add" after a remove. */
  function ButtonAfter(action: CartAction): CartButton {
    if action.AddCartItem? then ShowsRemove else ShowsAdd
  }

  /** After a successful toggle the button shows the opposite of the
      product's membership in the first cart before the click. */
  lemma ToggleFlipsButton(productId: string, cartId: string, results: seq<Cart>)
    ensures ButtonAfter(AddToCartToggle(productId, cartId, Some(results)).value) == ShowsRemove
        <==> productId !in CartProductIds(Some(results))
  {
    MarkingAgreesWithToggle(productId, cartId, results);
  }

  /** Right after `handleCartCreation` has created the shopper's cart, the
      first listed cart is that empty cart, so a click adds the product. */
  lemma FreshCartToggleAdds(
    s: CustomerCart.State, auth: CustomerCart.Authorization, faults: CustomerCart.Faults,
    newCartId: string, productId: string, cartId: string)
    requires var run := CustomerCart.HandleCartCreation(s, auth, faults, newCartId);
      run.outcome == CustomerCart.Resolved && |run.calls| == 2
    ensures var run := CustomerCart.HandleCartCreation(s, auth, faults, newCartId);
      var listing := CustomerCart.ActiveCarts(run.state.remote, CustomerCart.AuthorizationHeader(run.state.storedToken));
      AddToCartToggle(productId, cartId, Some(listing)) == Some(AddCartItem(cartId, productId))
  {
    CustomerCart.CreatedCartIsFirstActive(s, auth, faults, newCartId);
  }

  // ---------------------------------------------------------------------
  // Navigation to product details and categories
  // ---------------------------------------------------------------------

  /** Where a click inside the product list landed: on a cart button (with
      its `data-product-id`, if any), elsewhere inside a product card (whose
      first class is the product id), or outside every card. */
  datatype ClickTarget = CartButtonLink(dataProductId: Option<string>) | ProductCard(firstClass: string) | Elsewhere

  datatype ClickEffect = ToggleCart(productId: string) | SetHash(hash: string) | NoEffect

  /** The `#product/<id>` hash a card click sets. */
  function ProductHash(productId: string): string {
    "#" + Router.ProductPrefix + productId
  }

  /** The `#category/<id>` link built for a product type. */
  function CategoryHref(typeId: string): string {
    "#" + Router.CategoryPrefix + typeId
  }

  /** `onProductClick`: a cart button starts the toggle when its product id
      is a non-empty string (null and "" are falsy); any other click inside
      a card opens that product's details. */
  function OnProductClick(target: ClickTarget): (effect: ClickEffect)
    ensures effect.ToggleCart? <==> target.CartButtonLink? && target.dataProductId.Some? && target.dataProductId.value != ""
    ensures effect.ToggleCart? ==> effect.productId == target.dataProductId.value
    ensures effect.SetHash? <==> target.ProductCard?
    ensures effect.SetHash? ==> Router.RouteOfHash(effect.hash) == Router.ProductPrefix + target.firstClass
  {
    match target
    case CartButtonLink(id) => if id.Some? && id.value != "" then ToggleCart(id.value) else NoEffect
    case ProductCard(c) => SetHash(ProductHash(c))
    case Elsewhere => NoEffect
  }

  /** A card click, fed back through the router's hash handling, opens the
      details of the same product whenever its id is over `[\w-]`. */
  lemma ProductCardOpensItsDetails(ids: Router.PageIds, productId: string, registered: bool)
    requires ids.Valid()
    requires productId != [] && forall k :: 0 <= k < |productId| ==> Router.IsWordOrDash(productId[k])
    ensures OnProductClick(ProductCard(productId)).SetHash?
    ensures Router.HandleHashChange(ids, OnProductClick(ProductCard(productId)).hash, registered)
         == Router.Dispatch(Router.ProductDetailsPage(productId), None)
  {
    assert Router.RouteOfHash(ProductHash(productId)) == Router.ProductPrefix + productId;
    Router.ProductRouteOpensDetails(ids, productId, registered);
  }

  /** A category link opens that category whenever the type id is lower-case
      hexadecimal with dashes. */
  lemma CategoryLinkOpensCategory(ids: Router.PageIds, typeId: string, registered: bool)
    requires ids.Valid()
    requires typeId != [] && forall k :: 0 <= k < |typeId| ==> Router.IsLowerHexOrDash(typeId[k])
    ensures Router.HandleHashChange(ids, CategoryHref(typeId), registered)
         == Router.Dispatch(Router.CategoryPage(typeId), None)
  {
    assert Router.RouteOfHash(CategoryHref(typeId)) == Router.CategoryPrefix + typeId;
    Router.CategoryRouteOpensCategory(ids, typeId, registered);
  }
}

=== FILE: commerce.dfy ===
/** The commerce platform's cart records, as far as the storefront reads
    them. */
module Commerce {

  /** One entry of a cart: the platform assigns `id`; `productId` names the
      product it holds. */
  datatype LineItem = LineItem(id: string, productId: string)

  datatype Cart = Cart(id: string, currency: string, lineItems: seq<LineItem>)
}

=== FILE: customer_cart.dfy ===
/** `handleCartCreation`: make sure the shopper has an active cart. The
    token step is delegated to an authorization helper, then the active carts
    are listed with the stored token, and a cart is created when the list is
    empty. Storage, the platform and the helper are explicit state and
    parameters here. */
module CustomerCart {
  import opened Wrappers
  import opened Commerce

  /** The currency every created cart is posted with. */
  const CartCurrency: string := "USD"

  /** What one step of the authorization helper does: fail, leave the stored
      token as it is, or store a new token. */
  datatype AuthStep = AuthRejected | TokenKept | TokenStored(token: string)

  /** The helper's behaviour for this run: the expiry check used when a token
      is stored, and the token creation used when none is. */
  datatype Authorization = Authorization(checkExpiration: AuthStep, createToken: AuthStep)

  /** Which remote call, if any, fails in this run. */
  datatype Faults = Faults(listFails: bool, createFails: bool)

  datatype Failure = AuthFailed | ListFailed | CreateFailed

  /** The platform's active carts, by the Authorization header that lists
      them. */
  datatype Remote = Remote(activeCarts: map<string, seq<Cart>>)

  /** The stored access token and the platform. */
  datatype State = State(storedToken: Option<string>, remote: Remote)

  /** The remote calls a run makes, in order. */
  datatype Call = ListMyCarts(header: string) | PostMyCart(header: string, currency: string)

  datatype Outcome = Resolved | Rejected(failure: Failure)

  datatype Run = Run(state: State, calls: seq<Call>, outcome: Outcome)

  /** The header `${customerToken}`: the stored token, or the text `null` when
      storage has no token. */
  function AuthorizationHeader(token: Option<string>): string {
    if token.Some? then token.value else "null"
  }

  function ActiveCarts(remote: Remote, header: string): seq<Cart> {
    if header in remote.activeCarts then remote.activeCarts[header] else []
  }

  /** `getMyActiveCart`: the carts the platform lists for the header. */
  function GetMyActiveCart(remote: Remote, header: string, faults: Faults): (r: Result<seq<Cart>, Failure>)
    ensures r.Err? <==> faults.listFails
    ensures r.Ok? ==> r.value == ActiveCarts(remote, header)
  {
    if faults.listFails then Err(ListFailed) else Ok(ActiveCarts(remote, header))
  }

  /** `createCart`: post an empty cart in the store currency; the platform
      lists it after the carts it already had for that header. */
  function CreateCart(remote: Remote, header: string, newCartId: string, faults: Faults): (r: Result<(Remote, Cart), Failure>)
    ensures r.Err? <==> faults.createFails
    ensures r.Ok? ==>
      var (remote', cart) := r.value;
      && cart.currency == CartCurrency && cart.lineItems == [] && cart.id == newCartId
      && ActiveCarts(remote', header) == ActiveCarts(remote, header) + [cart]
      && forall h :: h != header ==> ActiveCarts(remote', h) == ActiveCarts(remote, h)
  {
    if faults.createFails then Err(CreateFailed)
    else
      var cart := Cart(newCartId, CartCurrency, []);
      Ok((Remote(remote.activeCarts[header := ActiveCarts(remote, header) + [cart]]), cart))
  }

  /** The token step: the expiry check when a token is stored, token
      creation otherwise; the result is what storage holds afterwards. */
  function TokenStep(stored: Option<string>, auth: Authorization): (r: Result<Option<string>, Failure>)
    // With a token stored only the expiry check decides; without one, only
    // token creation.
    ensures stored.Some? ==> (r.Err? <==> auth.checkExpiration == AuthRejected)
    ensures stored.None? ==> (r.Err? <==> auth.createToken == AuthRejected)
    // A stored token is kept or replaced, never removed.
    ensures r.Ok? && stored.Some? ==> r.value.Some?
    // Storage changes only to a token the helper stored.
    ensures r.Ok? && r.value != stored ==>
      var step := if stored.Some? then auth.checkExpiration else auth.createToken;
      step.TokenStored? && r.value == Some(step.token)
  {
    var step := if stored.Some? then auth.checkExpiration else auth.createToken;
    match step
    case AuthRejected => Err(AuthFailed)
    case TokenKept => Ok(stored)
    case TokenStored(t) => Ok(Some(t))
  }

  /** `handleCartCreation`: token step, then list the active carts with the
      token read back from storage, then create a cart iff the list is
      empty. Each failure rejects the run at that point. */
  function HandleCartCreation(s: State, auth: Authorization, faults: Faults, newCartId: string): (run: Run)
    // The listing reads back the token the token step left in storage.
    ensures TokenStep(s.storedToken, auth).Ok? ==> run.state.storedToken == TokenStep(s.storedToken, auth).value
    // A failed token step makes no call and changes nothing.
    ensures TokenStep(s.storedToken, auth).Err? ==> run.calls == [] && run.state == s
    // The only calls are the listing with the stored token, then possibly a post.
    ensures var h := AuthorizationHeader(run.state.storedToken);
      || run.calls == []
      || run.calls == [ListMyCarts(h)]
      || run.calls == [ListMyCarts(h), PostMyCart(h, CartCurrency)]
    // A cart is posted exactly when the listing succeeded and was empty.
    ensures |run.calls| == 2 <==>
      && TokenStep(s.storedToken, auth).Ok?
      && !faults.listFails
      && ActiveCarts(s.remote, AuthorizationHeader(TokenStep(s.storedToken, auth).value)) == []
    // After success the shopper has an active cart.
    ensures run.outcome == Resolved ==>
      |ActiveCarts(run.state.remote, AuthorizationHeader(run.state.storedToken))| > 0
    // A failure leaves the platform as it was.
    ensures run.outcome.Rejected? ==> run.state.remote == s.remote
    // After a successful token step the listing is always the first call.
    ensures TokenStep(s.storedToken, auth).Ok? ==> |run.calls| >= 1 && run.calls[0] == ListMyCarts(AuthorizationHeader(run.state.storedToken))
    // A run that posts nothing leaves the platform as it was.
    ensures |run.calls| < 2 ==> run.state.remote == s.remote
    // A rejection reports the first step that failed.
    ensures run.outcome.Rejected? ==> run.outcome.failure == (if TokenStep(s.storedToken, auth).Err? then AuthFailed else if faults.listFails then ListFailed else CreateFailed)
    // No other header's carts ever change.
    ensures forall h :: h != AuthorizationHeader(run.state.storedToken) ==> ActiveCarts(run.state.remote, h) == ActiveCarts(s.remote, h)
    // A created cart is the shopper's only active cart: empty, in USD, with the new id.
    ensures run.outcome == Resolved && |run.calls| == 2 ==>
      ActiveCarts(run.state.remote, AuthorizationHeader(run.state.storedToken)) == [Cart(newCartId, CartCurrency, [])]
    // Success means every call succeeded.
    ensures run.outcome == Resolved <==>
      && TokenStep(s.storedToken, auth).Ok?
      && !faults.listFails
      && (|run.calls| == 2 ==> !faults.createFails)
  {
    match TokenStep(s.storedToken, auth)
    case Err(f) => Run(s, [], Rejected(f))
    case Ok(token) =>
      var s1 := State(token, s.remote);
      var h := AuthorizationHeader(token);
      match GetMyActiveCart(s1.remote, h, faults)
      case Err(f) => Run(s1, [ListMyCarts(h)], Rejected(f))
      case Ok(carts) =>
        if |carts| == 0 then
          match CreateCart(s1.remote, h, newCartId, faults)
          case Err(f) => Run(s1, [ListMyCarts(h), PostMyCart(h, CartCurrency)], Rejected(f))
          case Ok((remote', _)) => Run(State(token, remote'), [ListMyCarts(h), PostMyCart(h, CartCurrency)], Resolved)
        else Run(s1, [ListMyCarts(h)], Resolved)
  }

  /** The helper step consulted depends only on whether a token is stored:
      with one, the creation step is never used; without one, the expiry
      check is never used. */
  lemma TokenBranchByStorage(stored: Option<string>, auth: Authorization, other: AuthStep)
    ensures stored.Some? ==>
      TokenStep(stored, auth) == TokenStep(stored, Authorization(auth.checkExpiration, other))
    ensures stored.None? ==>
      TokenStep(stored, auth) == TokenStep(stored, Authorization(other, auth.createToken))
    ensures stored.None? && auth.createToken.TokenStored? ==>
      TokenStep(stored, auth) == Ok(Some(auth.createToken.token))
  {
  }

  /** A second run that keeps the token creates nothing: the first run's
      success left a cart in the listing. */
  lemma HandleCartCreationIdempotent(
    s: State, auth1: Authorization, auth2: Authorization, faults1: Faults, faults2: Faults,
    id1: string, id2: string)
    requires HandleCartCreation(s, auth1, faults1, id1).outcome == Resolved
    requires var s1 := HandleCartCreation(s, auth1, faults1, id1).state;
      TokenStep(s1.storedToken, auth2) == Ok(s1.storedToken)
    ensures var s1 := HandleCartCreation(s, auth1, faults1, id1).state;
      var run2 := HandleCartCreation(s1, auth2, faults2, id2);
      && (forall c :: c in run2.calls ==> !c.PostMyCart?)
      && run2.state == s1
      && (run2.outcome == Resolved <==> !faults2.listFails)
  {
  }

  /** The cart a run creates is the shopper's only active cart, in USD and
      empty. */
  lemma CreatedCartIsFirstActive(s: State, auth: Authorization, faults: Faults, newCartId: string)
    requires var run := HandleCartCreation(s, auth, faults, newCartId);
      run.outcome == Resolved && |run.calls| == 2
    ensures var run := HandleCartCreation(s, auth, faults, newCartId);
      ActiveCarts(run.state.remote, AuthorizationHeader(run.state.storedToken))
        == [Cart(newCartId, CartCurrency, [])]
  {
  }
}

=== FILE: home_deals.dfy ===
/** The home page's special offers: the searched products whose first price
    carries a discount, shown in search order. */
module HomeDeals {
  import opened Wrappers

  /** A price; `discounted` is present when a discount applies. */
  datatype Price = Price(centAmount: nat, discounted: Option<nat>)

  /** A searched product: its id and its master variant's `prices`, which the
      platform may omit. */
  datatype ProductProjection = ProductProjection(id: string, prices: Option<seq<Price>>)

  /** Reading `prices[0].discounted` of an empty (but present) price list
      throws a TypeError at that product. */
  datatype DealsError = EmptyPriceList(index: nat)

  predicate HasEmptyPriceList(p: ProductProjection) {
    p.prices == Some([])
  }

  /** `product.masterVariant.prices && product.masterVariant.prices[0].discounted`
      for a product whose price list, when present, is not empty. */
  predicate IsSpecialDeal(p: ProductProjection) {
    p.prices.Some? && |p.prices.value| > 0 && p.prices.value[0].discounted.Some?
  }

  /** `a` is `b` with some elements left out, the rest in their order. */
  predicate IsSubsequence<T(==)>(a: seq<T>, b: seq<T>)
    decreases |b|
  {
    if |a| == 0 then true
    else if |b| == 0 then false
    else (a[0] == b[0] && IsSubsequence(a[1..], b[1..])) || IsSubsequence(a, b[1..])
  }

  lemma {:induction false} SubsequenceShorter<T>(a: seq<T>, b: seq<T>)
    requires IsSubsequence(a, b)
    ensures |a| <= |b|
    decreases |b|
  {
    if |a| > 0 {
      if a[0] == b[0] && IsSubsequence(a[1..], b[1..]) {
        SubsequenceShorter(a[1..], b[1..]);
      } else {
        SubsequenceShorter(a, b[1..]);
      }
    }
  }

  lemma {:induction false} SubsequenceOfTail<T>(a: seq<T>, b: seq<T>)
    requires |b| > 0 && IsSubsequence(a, b[1..])
    ensures IsSubsequence(a, b)
  {
  }

  /** The `forEach` of `homePageSpecialDeals` over the products from index
      `offset` on: keep the special deals; the first empty price list
      aborts the whole loop. */
  function SpecialDealsFrom(results: seq<ProductProjection>, offset: nat): (r: Result<seq<ProductProjection>, DealsError>)
    decreases |results|
    ensures r.Err? <==> exists k :: 0 <= k < |results| && HasEmptyPriceList(results[k])
    ensures r.Err? ==>
      var k := r.error.index - offset;
      && offset <= r.error.index && k < |results| && HasEmptyPriceList(results[k])
      && forall m :: 0 <= m < k ==> !HasEmptyPriceList(results[m])
    ensures r.Ok? ==> forall x :: x in r.value ==> IsSpecialDeal(x)
    ensures r.Ok? ==> forall k :: 0 <= k < |results| && IsSpecialDeal(results[k]) ==> results[k] in r.value
    ensures r.Ok? ==> IsSubsequence(r.value, results)
  {
    if |results| == 0 then Ok([])
    else if HasEmptyPriceList(results[0]) then Err(EmptyPriceList(offset))
    else
      var tail := results[1..];
      assert forall k :: 1 <= k < |results| ==> results[k] == tail[k - 1];
      match SpecialDealsFrom(tail, offset + 1)
      case Err(e) => Err(e)
      case Ok(rest) =>
        if IsSpecialDeal(results[0]) then
          assert ([results[0]] + rest)[1..] == rest;
          Ok([results[0]] + rest)
        else
          SubsequenceOfTail(rest, results);
          Ok(rest)
  }

  /** `homePageSpecialDeals`'s filtering step over the search results. */
  function SpecialDeals(results: seq<ProductProjection>): Result<seq<ProductProjection>, DealsError> {
    SpecialDealsFrom(results, 0)
  }

  /** The cards the page shows: the deals when the filtering step finished;
      nothing when it threw, because the rendering step is then skipped. */
  function SpecialOffersShown(results: seq<ProductProjection>): (shown: seq<ProductProjection>)
    ensures (exists k :: 0 <= k < |results| && HasEmptyPriceList(results[k])) ==> shown == []
    ensures (forall k :: 0 <= k < |results| ==> !HasEmptyPriceList(results[k])) ==> shown == DealsIn(results)
  {
    DealsFromIsFilter(results, 0);
    match SpecialDeals(results)
    case Ok(deals) => deals
    case Err(_) => []
  }

  /** `homePageSpecialDeals` from the product search's answer: the results,
      or `None` when the search rejects, which the `.catch` absorbs with no
      offer shown. */
  function HomePageSpecialDeals(search: Option<seq<ProductProjection>>): (shown: seq<ProductProjection>)
    ensures search.None? ==> shown == []
    ensures search.Some? && (exists k :: 0 <= k < |search.value| && HasEmptyPriceList(search.value[k])) ==> shown == []
    ensures search.Some? && (forall k :: 0 <= k < |search.value| ==> !HasEmptyPriceList(search.value[k])) ==>
      shown == DealsIn(search.value)
  {
    if search.Some? then SpecialOffersShown(search.value) else []
  }

  /** The offers shown are special deals from the search, in search order,
      never more than were searched, and every special deal is among them,
      unless some product has an empty price list. */
  lemma OffersAreOrderedDeals(results: seq<ProductProjection>)
    requires forall k :: 0 <= k < |results| ==> !HasEmptyPriceList(results[k])
    ensures var shown := SpecialOffersShown(results);
      && IsSubsequence(shown, results)
      && |shown| <= |results|
      && (forall k :: 0 <= k < |results| ==> (IsSpecialDeal(results[k]) <==> results[k] in shown))
  {
    var shown := SpecialOffersShown(results);
    SubsequenceShorter(shown, results);
  }

  /** One empty price list hides every offer, including deals that came
      before it. */
  lemma EmptyPriceListHidesAllOffers(results: seq<ProductProjection>, k: nat)
    requires k < |results| && HasEmptyPriceList(results[k])
    ensures SpecialOffersShown(results) == []
    ensures SpecialDeals(results).Err?
  {
  }

  /** Products without a `prices` field are skipped, not an error. */
  lemma MissingPricesSkipped(results: seq<ProductProjection>, k: nat)
    requires k < |results| && results[k].prices.None?
    requires forall m :: 0 <= m < |results| ==> !HasEmptyPriceList(results[m])
    ensures SpecialDeals(results).Ok? && results[k] !in SpecialOffersShown(results)
  {
  }

  /** The deals of a result list read as a plain filter, with no error case:
      an independent reference for `SpecialDealsFrom`. */
  function DealsIn(results: seq<ProductProjection>): seq<ProductProjection> {
    if |results| == 0 then []
    else (if IsSpecialDeal(results[0]) then [results[0]] else []) + DealsIn(results[1..])
  }

  /** When the loop finishes, it has computed exactly the plain filter. */
  lemma {:induction false} DealsFromIsFilter(results: seq<ProductProjection>, offset: nat)
    ensures SpecialDealsFrom(results, offset).Ok? ==> SpecialDealsFrom(results, offset).value == DealsIn(results)
    decreases |results|
  {
    if |results| > 0 {
      DealsFromIsFilter(results[1..], offset + 1);
    }
  }

  lemma {:induction false} DealsInConcat(a: seq<ProductProjection>, b: seq<ProductProjection>)
    ensures DealsIn(a + b) == DealsIn(a) + DealsIn(b)
    decreases |a|
  {
    if |a| == 0 {
      assert a + b == b;
    } else {
      assert (a + b)[0] == a[0];
      assert (a + b)[1..] == a[1..] + b;
      DealsInConcat(a[1..], b);
      ConcatAssociates(if IsSpecialDeal(a[0]) then [a[0]] else [], DealsIn(a[1..]), DealsIn(b));
    }
  }

  /** Regrouping a concatenation, stated once so the solver need not search for it. */
  lemma ConcatAssociates<T>(x: seq<T>, y: seq<T>, z: seq<T>)
    ensures x + (y + z) == (x + y) + z
  {
  }

  /** Filtering distributes over concatenation: the offers of two result
      lists are the offers of the first followed by those of the second. */
  lemma {:induction false} DealsConcat(a: seq<ProductProjection>, b: seq<ProductProjection>, offset: nat)
    requires forall k :: 0 <= k < |a| ==> !HasEmptyPriceList(a[k])
    requires forall k :: 0 <= k < |b| ==> !HasEmptyPriceList(b[k])
    ensures SpecialDealsFrom(a + b, offset).Ok?
    ensures SpecialDealsFrom(a + b, offset).value
         == SpecialDealsFrom(a, offset).value + SpecialDealsFrom(b, offset + |a|).value
  {
    assert forall k :: 0 <= k < |a + b| ==> !HasEmptyPriceList((a + b)[k]) by {
      forall k | 0 <= k < |a + b| ensures !HasEmptyPriceList((a + b)[k]) {
        if k >= |a| { assert (a + b)[k] == b[k - |a|]; }
      }
    }
    DealsFromIsFilter(a + b, offset);
    DealsFromIsFilter(a, offset);
    DealsFromIsFilter(b, offset + |a|);
    DealsInConcat(a, b);
  }
}

=== FILE: login.dfy ===
/** The login form's field checks: the e-mail and password patterns, applied
    to the trimmed input, and the custom-validity message they choose. */
module LoginValidation {
  import Text

  // ---------------------------------------------------------------------
  // E-mail: /^[^\s@]+@[^\s@]+\.[^\s@]+$/
  // ---------------------------------------------------------------------

  /** One character of the class `[^\s@]`. */
  predicate IsEmailChar(c: char) {
    !Text.IsWhitespace(c) && c != '@'
  }

  predicate AllEmailChars(s: string) {
    forall k :: 0 <= k < |s| ==> IsEmailChar(s[k])
  }

  /** `s` reads as a + "@" + b + "." + c with the `@` at index `i` and the
      `.` at index `j`, and a, b, c non-empty runs of `[^\s@]`. */
  predicate EmailSplitAt(s: string, i: nat, j: nat) {
    && 0 < i && i + 1 < j && j + 1 < |s|
    && s[i] == '@' && s[j] == '.'
    && AllEmailChars(s[..i]) && AllEmailChars(s[i + 1..j]) && AllEmailChars(s[j + 1..])
  }

  /** The language of the e-mail pattern. */
  ghost predicate MatchesEmailPattern(s: string) {
    exists i: nat, j: nat :: EmailSplitAt(s, i, j)
  }

  /** The pattern's states while reading left to right: before and inside the
      local part, right after `@`, inside the domain, right after a dot that
      could end the domain, inside the last label, and failed. */
  datatype EmailState = LocalStart | LocalPart | DomainStart | Domain | AfterDot | LastLabel | Rejected

  function EmailStep(q: EmailState, c: char): EmailState {
    match q
    case LocalStart => if IsEmailChar(c) then LocalPart else Rejected
    case LocalPart => if c == '@' then DomainStart else if IsEmailChar(c) then LocalPart else Rejected
    case DomainStart => if IsEmailChar(c) then Domain else Rejected
    case Domain => if c == '.' then AfterDot else if IsEmailChar(c) then Domain else Rejected
    case AfterDot => if IsEmailChar(c) then LastLabel else Rejected
    case LastLabel => if IsEmailChar(c) then LastLabel else Rejected
    case Rejected => Rejected
  }

  function EmailRun(q: EmailState, s: string): EmailState
    decreases |s|
  {
    if |s| == 0 then q else EmailRun(EmailStep(q, s[0]), s[1..])
  }

  /** A domain of `[^\s@]` characters with a dot at index `minDot` or later
      that is not the last character. */
  predicate DomainWithDot(d: string, minDot: nat) {
    AllEmailChars(d) && exists j :: minDot <= j && j + 1 < |d| && d[j] == '.'
  }

  /** An `@` at index `minAt` or later, only `[^\s@]` before it, and a
      domain with a dot after it. */
  predicate AddressFrom(s: string, minAt: nat) {
    exists i :: minAt <= i < |s| && s[i] == '@' && AllEmailChars(s[..i]) && DomainWithDot(s[i + 1..], 1)
  }

  /** What the rest of the input must look like for the run from `q` to
      end in `LastLabel`. */
  ghost predicate Accepts(q: EmailState, s: string) {
    match q
    case LocalStart => AddressFrom(s, 1)
    case LocalPart => AddressFrom(s, 0)
    case DomainStart => DomainWithDot(s, 1)
    case Domain => DomainWithDot(s, 0)
    case AfterDot => |s| >= 1 && AllEmailChars(s)
    case LastLabel => AllEmailChars(s)
    case Rejected => false
  }

  lemma AllEmailCharsTail(s: string)
    requires |s| > 0
    ensures AllEmailChars(s) <==> IsEmailChar(s[0]) && AllEmailChars(s[1..])
  {
    assert forall k :: 1 <= k < |s| ==> s[k] == s[1..][k - 1];
  }

  lemma {:induction false} DomainStep(d: string, minDot: nat)
    requires |d| > 0 && IsEmailChar(d[0])
    ensures DomainWithDot(d, minDot + 1) <==> DomainWithDot(d[1..], minDot)
  {
    AllEmailCharsTail(d);
    var t := d[1..];
    if DomainWithDot(d, minDot + 1) {
      var j :| minDot + 1 <= j && j + 1 < |d| && d[j] == '.';
      assert t[j - 1] == '.';
    }
    if DomainWithDot(t, minDot) {
      var j :| minDot <= j && j + 1 < |t| && t[j] == '.';
      assert d[j + 1] == '.';
    }
  }

  lemma {:induction false} DomainDotFirst(d: string)
    requires |d| > 0 && d[0] == '.'
    ensures DomainWithDot(d, 0) <==> |d[1..]| >= 1 && AllEmailChars(d[1..])
  {
    AllEmailCharsTail(d);
  }

  lemma {:induction false} AddressStepForward(s: string, minAt: nat, i: nat)
    requires |s| > 0
    requires minAt + 1 <= i < |s| && s[i] == '@' && AllEmailChars(s[..i]) && DomainWithDot(s[i + 1..], 1)
    ensures AddressFrom(s[1..], minAt)
  {
    var t := s[1..];
    assert t[i - 1] == '@';
    var a, b := t[..i - 1], s[..i];
    assert forall k :: 0 <= k < |a| ==> a[k] == b[k + 1];
    assert AllEmailChars(a);
    assert t[i - 1 + 1..] == s[i + 1..];
    assert minAt <= i - 1 < |t| && t[i - 1] == '@' && AllEmailChars(t[..i - 1]) && DomainWithDot(t[i - 1 + 1..], 1);
  }

  lemma {:induction false} AddressStepBack(s: string, minAt: nat, i: nat)
    requires |s| > 0 && IsEmailChar(s[0])
    requires minAt <= i < |s| - 1 && s[1..][i] == '@' && AllEmailChars(s[1..][..i]) && DomainWithDot(s[1..][i + 1..], 1)
    ensures AddressFrom(s, minAt + 1)
  {
    var t := s[1..];
    assert s[i + 1] == '@';
    var a, b := s[..i + 1], t[..i];
    assert forall k :: 1 <= k < |a| ==> a[k] == b[k - 1];
    assert AllEmailChars(a);
    assert s[i + 1 + 1..] == t[i + 1..];
    assert minAt + 1 <= i + 1 < |s| && s[i + 1] == '@' && AllEmailChars(s[..i + 1]) && DomainWithDot(s[i + 1 + 1..], 1);
  }

  lemma {:induction false} AddressStep(s: string, minAt: nat)
    requires |s| > 0 && IsEmailChar(s[0])
    ensures AddressFrom(s, minAt + 1) <==> AddressFrom(s[1..], minAt)
  {
    var t := s[1..];
    if AddressFrom(s, minAt + 1) {
      var i :| minAt + 1 <= i < |s| && s[i] == '@' && AllEmailChars(s[..i]) && DomainWithDot(s[i + 1..], 1);
      AddressStepForward(s, minAt, i);
    }
    if AddressFrom(t, minAt) {
      var i :| minAt <= i < |t| && t[i] == '@' && AllEmailChars(t[..i]) && DomainWithDot(t[i + 1..], 1);
      AddressStepBack(s, minAt, i);
    }
  }

  lemma {:induction false} AddressAtFirst(s: string)
    requires |s| > 0 && s[0] == '@'
    ensures AddressFrom(s, 0) <==> DomainWithDot(s[1..], 1)
  {
    if AddressFrom(s, 0) {
      var i :| 0 <= i < |s| && s[i] == '@' && AllEmailChars(s[..i]) && DomainWithDot(s[i + 1..], 1);
      assert i == 0 by {
        assert i > 0 ==> !IsEmailChar(s[..i][0]);
      }
    }
    if DomainWithDot(s[1..], 1) {
      assert AllEmailChars(s[..0]);
    }
  }

  lemma {:induction false} AddressNeedsEmailChar(s: string, minAt: nat)
    requires |s| > 0 && !IsEmailChar(s[0]) && s[0] != '@'
    ensures !AddressFrom(s, minAt)
  {
  }

  /** One step of the run preserves what remains to be accepted. */
  lemma {:induction false} EmailStepAccepts(q: EmailState, s: string)
    requires |s| > 0
    ensures Accepts(q, s) <==> Accepts(EmailStep(q, s[0]), s[1..])
  {
    var c := s[0];
    match q
    case LocalStart =>
      if IsEmailChar(c) { AddressStep(s, 0); }
      else if c != '@' { AddressNeedsEmailChar(s, 1); }
    case LocalPart =>
      if c == '@' { AddressAtFirst(s); }
      else if IsEmailChar(c) {
        AddressStep(s, 0);
        assert AddressFrom(s, 0) <==> AddressFrom(s, 1) by {
          if AddressFrom(s, 0) {
            var i :| 0 <= i < |s| && s[i] == '@' && AllEmailChars(s[..i]) && DomainWithDot(s[i + 1..], 1);
            assert i != 0;
          }
        }
      }
      else { AddressNeedsEmailChar(s, 0); }
    case DomainStart =>
      AllEmailCharsTail(s);
      if IsEmailChar(c) { DomainStep(s, 0); }
    case Domain =>
      AllEmailCharsTail(s);
      if c == '.' { DomainDotFirst(s); }
      else if IsEmailChar(c) {
        DomainStep(s, 0);
        assert DomainWithDot(s, 0) <==> DomainWithDot(s, 1) by {
          if DomainWithDot(s, 0) {
            var j :| 0 <= j && j + 1 < |s| && s[j] == '.';
            assert j != 0;
          }
        }
      }
    case AfterDot =>
      AllEmailCharsTail(s);
    case LastLabel =>
      AllEmailCharsTail(s);
    case Rejected =>
  }

  /** The run from `q` ends in `LastLabel` exactly when the input is what
      `q` still expects. */
  lemma {:induction false} EmailRunAccepts(q: EmailState, s: string)
    ensures EmailRun(q, s) == LastLabel <==> Accepts(q, s)
    decreases |s|
  {
    if |s| > 0 {
      EmailStepAccepts(q, s);
      EmailRunAccepts(EmailStep(q, s[0]), s[1..]);
    }
  }

  /** Email characters on both sides of one more email character. */
  lemma {:induction false} AllEmailCharsAround(d: string, m: nat)
    requires m < |d| && IsEmailChar(d[m])
    requires AllEmailChars(d[..m]) && AllEmailChars(d[m + 1..])
    ensures AllEmailChars(d)
  {
    forall k | 0 <= k < |d| ensures IsEmailChar(d[k]) {
      if k < m { assert d[k] == d[..m][k]; }
      else if k > m { assert d[k] == d[m + 1..][k - m - 1]; }
    }
  }

  lemma {:induction false} SplitGivesAddress(s: string, i: nat, j: nat)
    requires EmailSplitAt(s, i, j)
    ensures AddressFrom(s, 1)
  {
    var d := s[i + 1..];
    var m := j - i - 1;
    assert d[..m] == s[i + 1..j];
    assert d[m + 1..] == s[j + 1..];
    assert d[m] == '.';
    AllEmailCharsAround(d, m);
    assert DomainWithDot(d, 1);
  }

  lemma {:induction false} AddressGivesSplit(s: string)
    requires AddressFrom(s, 1)
    ensures MatchesEmailPattern(s)
  {
    var i :| 1 <= i < |s| && s[i] == '@' && AllEmailChars(s[..i]) && DomainWithDot(s[i + 1..], 1);
    var d := s[i + 1..];
    var m :| 1 <= m && m + 1 < |d| && d[m] == '.';
    var j := i + 1 + m;
    assert s[i + 1..j] == d[..m];
    assert s[j + 1..] == d[m + 1..];
    assert EmailSplitAt(s, i, j);
  }

  /** The split form of the pattern and the state machine's start language
      agree. */
  lemma {:induction false} EmailPatternIsAddress(s: string)
    ensures MatchesEmailPattern(s) <==> AddressFrom(s, 1)
  {
    if MatchesEmailPattern(s) {
      var i: nat, j: nat :| EmailSplitAt(s, i, j);
      SplitGivesAddress(s, i, j);
    }
    if AddressFrom(s, 1) {
      AddressGivesSplit(s);
    }
  }

  /** `validateEmail`: the pattern test, run as the state machine it
      compiles to. */
  function ValidateEmail(email: string): (ok: bool)
    ensures ok <==> MatchesEmailPattern(email)
  {
    EmailRunAccepts(LocalStart, email);
    EmailPatternIsAddress(email);
    EmailRun(LocalStart, email) == LastLabel
  }

  /** The pattern in its written form: a + "@" + b + "." + c with a, b, c
      non-empty and free of whitespace and `@`. */
  lemma EmailFromParts(a: string, b: string, c: string)
    requires a != [] && b != [] && c != []
    requires AllEmailChars(a) && AllEmailChars(b) && AllEmailChars(c)
    ensures ValidateEmail(a + "@" + b + "." + c)
  {
    var s := a + "@" + b + "." + c;
    var i := |a|;
    var j := |a| + 1 + |b|;
    assert s[..i] == a && s[i + 1..j] == b && s[j + 1..] == c;
    assert EmailSplitAt(s, i, j);
  }

  /** Every accepted address splits into such parts. */
  lemma EmailToParts(email: string)
    requires ValidateEmail(email)
    ensures exists i: nat, j: nat ::
      (EmailSplitAt(email, i, j) && email == email[..i] + "@" + email[i + 1..j] + "." + email[j + 1..])
  {
    var i: nat, j: nat :| EmailSplitAt(email, i, j);
    assert email == email[..i] + "@" + email[i + 1..j] + "." + email[j + 1..];
  }

  /** An accepted address has exactly one `@` and no whitespace at all. */
  lemma AcceptedEmailShape(email: string)
    requires ValidateEmail(email)
    ensures exists i ::
      (0 <= i < |email| && email[i] == '@' && forall k :: 0 <= k < |email| && email[k] == '@' ==> k == i)
    ensures forall k :: 0 <= k < |email| ==> !Text.IsWhitespace(email[k])
  {
    var i: nat, j: nat :| EmailSplitAt(email, i, j);
    forall k | 0 <= k < |email|
      ensures !Text.IsWhitespace(email[k]) && (email[k] == '@' ==> k == i)
    {
      if k < i { assert email[k] == email[..i][k]; }
      else if i < k < j { assert email[k] == email[i + 1..j][k - i - 1]; }
      else if j < k { assert email[k] == email[j + 1..][k - j - 1]; }
    }
  }

  // ---------------------------------------------------------------------
  // Password: /[A-Za-z\d\-!@#$%^&*]{8,}$/   (anchored at the end only)
  // ---------------------------------------------------------------------

  const MinPasswordLength: nat := 8

  /** One character of the class `[A-Za-z\d\-!@#$%^&*]`. */
  predicate IsPasswordChar(c: char) {
    || 'A' <= c <= 'Z' || 'a' <= c <= 'z' || '0' <= c <= '9'
    || c == '-' || c == '!' || c == '@' || c == '#' || c == '$'
    || c == '%' || c == '^' || c == '&' || c == '*'
  }

  predicate AllPasswordChars(s: string) {
    forall k :: 0 <= k < |s| ==> IsPasswordChar(s[k])
  }

  /** The language of the password pattern: some suffix of at least eight
      characters is made of class characters only. */
  ghost predicate MatchesPasswordPattern(p: string) {
    exists k :: 0 <= k && k + MinPasswordLength <= |p| && AllPasswordChars(p[k..])
  }

  /** Length of the longest suffix of `s` made of class characters. */
  function TrailingPasswordRun(s: string): (n: nat)
    ensures n <= |s|
    ensures AllPasswordChars(s[|s| - n..])
    ensures n < |s| ==> !IsPasswordChar(s[|s| - n - 1])
  {
    if |s| == 0 || !IsPasswordChar(s[|s| - 1]) then 0
    else
      var m := TrailingPasswordRun(s[..|s| - 1]);
      assert forall k :: |s| - 1 - m <= k < |s| - 1 ==> s[k] == s[..|s| - 1][k];
      1 + m
  }

  /** `validatePassword`: the pattern test, decided by the length of the
      trailing run of class characters. */
  function ValidatePassword(password: string): (ok: bool)
    ensures ok <==> MatchesPasswordPattern(password)
    ensures |password| < MinPasswordLength ==> !ok
  {
    var n := TrailingPasswordRun(password);
    var p := password;
    assert n >= MinPasswordLength ==> p[|p| - n..][n - MinPasswordLength..] == p[|p| - MinPasswordLength..];
    assert MatchesPasswordPattern(p) ==> n >= MinPasswordLength by {
      if MatchesPasswordPattern(p) {
        var k :| 0 <= k && k + MinPasswordLength <= |p| && AllPasswordChars(p[k..]);
        assert forall m :: k <= m < |p| ==> IsPasswordChar(p[m]) by {
          forall m | k <= m < |p| ensures IsPasswordChar(p[m]) { assert p[m] == p[k..][m - k]; }
        }
      }
    }
    n >= MinPasswordLength
  }

  /** Characters placed before a password never make it fail: the pattern
      only looks at the end. */
  lemma {:induction false} PrefixKeepsTrailingRun(x: string, p: string)
    ensures TrailingPasswordRun(x + p) >= TrailingPasswordRun(p)
    decreases |p|
  {
    if |p| > 0 && IsPasswordChar(p[|p| - 1]) {
      assert (x + p)[..|x + p| - 1] == x + p[..|p| - 1];
      PrefixKeepsTrailingRun(x, p[..|p| - 1]);
    }
  }

  lemma PrefixKeepsPasswordValid(x: string, p: string)
    requires ValidatePassword(p)
    ensures ValidatePassword(x + p)
  {
    PrefixKeepsTrailingRun(x, p);
  }

  /** What the pattern does not demand: any eight class characters pass
      (digits alone, say), whatever stands before them. */
  lemma EightClassCharsAccepted(x: string, p: string)
    requires |p| == MinPasswordLength && AllPasswordChars(p)
    ensures ValidatePassword(x + p)
  {
    var s := x + p;
    assert s[|x|..] == p;
  }

  /** The pattern is anchored at the end: a last character outside the class
      fails the password, whatever precedes it. */
  lemma {:induction false} TrailingNonClassRejected(x: string, c: char)
    requires !IsPasswordChar(c)
    ensures !ValidatePassword(x + [c])
  {
    var p := x + [c];
    assert p[|p| - 1] == c;
  }

  // ---------------------------------------------------------------------
  // Real-time validation
  // ---------------------------------------------------------------------

  datatype LoginField = EmailField | PasswordField

  const EmailFormatMessage: string := "Invalid email format\nExample: name@domain.com"

  const PasswordFormatMessage: string :=
    "Invalid password format\n\n          Your password must contain at least:\n\n"
    + "    \U{2022} 8 characters (both letters and numbers),\n\n"
    + "    \U{2022} include symbols: -!@#$%^&*"

  /** The input handler: trim the field's value, run the field's check, and
      set the empty custom-validity message (valid) or the field's error
      message. */
  function CustomValidity(field: LoginField, rawValue: string): (message: string)
    ensures message == "" <==>
      match field
      case EmailField => MatchesEmailPattern(Text.Trim(rawValue))
      case PasswordField => MatchesPasswordPattern(Text.Trim(rawValue))
    ensures message != "" ==> message == (if field == EmailField then EmailFormatMessage else PasswordFormatMessage)
  {
    var value := Text.Trim(rawValue);
    match field
    case EmailField => if ValidateEmail(value) then "" else EmailFormatMessage
    case PasswordField => if ValidatePassword(value) then "" else PasswordFormatMessage
  }

  /** Whitespace typed around a value never changes the verdict. */
  lemma PaddingIgnored(field: LoginField, pre: string, value: string, post: string)
    requires Text.AllWhitespace(pre) && Text.AllWhitespace(post)
    ensures CustomValidity(field, pre + value + post) == CustomValidity(field, value)
  {
    Text.TrimIgnoresPadding(pre, value, post);
  }
}

=== FILE: router.dfy ===
/** Hash-route dispatch: which page the storefront renders for the text after
    `#` in the address, and which navigation the router triggers on the way. */
module Router {
  import opened Wrappers
  import Text

  /** The route strings of the fixed pages. Their concrete text lives in an
      enumeration that is not part of this model, so they are parameters. */
  datatype PageIds = PageIds(
    home: string,
    login: string,
    registration: string,
    catalog: string,
    myProfile: string,
    cart: string,
    aboutUs: string)
  {
    /** The fixed routes, in the order the dispatcher tests them. */
    function Fixed(): seq<string> {
      [home, login, registration, catalog, myProfile, cart, aboutUs]
    }

    /** The fixed routes are pairwise different and none of them looks like a
        product or category route. */
    predicate Valid() {
      && (forall i, j :: 0 <= i < j < |Fixed()| ==> Fixed()[i] != Fixed()[j])
      && (forall i :: 0 <= i < |Fixed()| ==> !IsProductRoute(Fixed()[i]) && !IsCategoryRoute(Fixed()[i]))
    }
  }

  datatype Page =
    | HomePage
    | LoginPage
    | RegistrationPage
    | CatalogPage
    | MyProfilePage
    | CartPage
    | AboutUsPage
    | ProductDetailsPage(productId: string)
    | CategoryPage(categoryId: string)
    | NotFoundPage

  /** A navigation performed while dispatching: assigning `location.href`
      adds a history entry, `location.replace` overwrites the current one. */
  datatype Redirect = AssignHref(url: string) | ReplaceLocation(url: string)

  datatype Dispatch = Dispatch(page: Page, redirect: Option<Redirect>)

  /** One character of the class `[\w-]`. */
  predicate IsWordOrDash(c: char) {
    'A' <= c <= 'Z' || 'a' <= c <= 'z' || '0' <= c <= '9' || c == '_' || c == '-'
  }

  /** One character of the class `[a-f0-9-]`. */
  predicate IsLowerHexOrDash(c: char) {
    'a' <= c <= 'f' || '0' <= c <= '9' || c == '-'
  }

  /** The first path segment of the two dynamic routes, and the route prefix
      it forms with the separator. */
  const ProductSegment: string := "product"
  const CategorySegment: string := "category"
  const ProductPrefix: string := ProductSegment + "/"
  const CategoryPrefix: string := CategorySegment + "/"

  /** The strings `/^product\/[\w-]+$/` accepts. */
  predicate IsProductRoute(s: string) {
    && |ProductPrefix| < |s|
    && s[..|ProductPrefix|] == ProductPrefix
    && forall k :: |ProductPrefix| <= k < |s| ==> IsWordOrDash(s[k])
  }

  /** The strings `/^category\/[a-f0-9-]+$/` accepts. */
  predicate IsCategoryRoute(s: string) {
    && |CategoryPrefix| < |s|
    && s[..|CategoryPrefix|] == CategoryPrefix
    && forall k :: |CategoryPrefix| <= k < |s| ==> IsLowerHexOrDash(s[k])
  }

  /** `s.split('/')[1]`: the text between the first separator and the next
      one (or the end). */
  function SecondSegment(s: string): string
    requires '/' in s
  {
    Text.Split(s, '/')[1]
  }

  /** `renderSpecificPage`: a `switch` on the route (the first equal case
      wins), then the two dynamic patterns, then the not-found page. */
  function Route(ids: PageIds, pageID: string, registered: bool): (r: Dispatch)
    // Only the guarded routes navigate, and only toward the page they render.
    ensures r.redirect.Some? ==>
      || (registered && (pageID == ids.login || pageID == ids.registration) && r.page == HomePage)
      || (!registered && pageID == ids.myProfile && r.page == LoginPage)
    // The profile page is shown only to registered shoppers.
    ensures r.page == MyProfilePage ==> registered
    // Dynamic pages are rendered only for routes matching their pattern.
    ensures r.page.ProductDetailsPage? ==> IsProductRoute(pageID)
    ensures r.page.CategoryPage? ==> IsCategoryRoute(pageID)
  {
    if pageID == ids.home then Dispatch(HomePage, None)
    else if pageID == ids.login then
      if registered then Dispatch(HomePage, Some(AssignHref("#"))) else Dispatch(LoginPage, None)
    else if pageID == ids.registration then
      if registered then Dispatch(HomePage, Some(AssignHref("#"))) else Dispatch(RegistrationPage, None)
    else if pageID == ids.catalog then Dispatch(CatalogPage, None)
    else if pageID == ids.myProfile then
      if registered then Dispatch(MyProfilePage, None)
      else Dispatch(LoginPage, Some(ReplaceLocation("#" + ids.login)))
    else if pageID == ids.cart then Dispatch(CartPage, None)
    else if pageID == ids.aboutUs then Dispatch(AboutUsPage, None)
    else if IsProductRoute(pageID) then
      assert pageID[|ProductPrefix| - 1] == '/';
      Dispatch(ProductDetailsPage(SecondSegment(pageID)), None)
    else if IsCategoryRoute(pageID) then
      assert pageID[|CategoryPrefix| - 1] == '/';
      Dispatch(CategoryPage(SecondSegment(pageID)), None)
    else Dispatch(NotFoundPage, None)
  }

  /** `location.hash.slice(1)`: the route is the hash without its leading
      `#`; the empty hash gives the empty route. */
  function RouteOfHash(hash: string): (route: string)
    ensures hash == [] ==> route == []
    ensures hash != [] ==> [hash[0]] + route == hash
  {
    if hash == [] then [] else hash[1..]
  }

  /** `handleHashChange`: dispatch on the current hash. */
  function HandleHashChange(ids: PageIds, hash: string, registered: bool): (r: Dispatch)
    // A details or category page rebuilds the hash from its id.
    ensures r.page.ProductDetailsPage? ==> hash != [] && hash == [hash[0]] + ProductPrefix + r.page.productId
    ensures r.page.CategoryPage? ==> hash != [] && hash == [hash[0]] + CategoryPrefix + r.page.categoryId
  {
    var route := RouteOfHash(hash);
    ProductRouteRoundTrip(ids, route, registered);
    CategoryRouteRoundTrip(ids, route, registered);
    Route(ids, route, registered)
  }

  /** Home, catalog, cart and about-us always render their own page and
      never navigate. */
  lemma RouteStaticPages(ids: PageIds, registered: bool)
    requires ids.Valid()
    ensures Route(ids, ids.home, registered) == Dispatch(HomePage, None)
    ensures Route(ids, ids.catalog, registered) == Dispatch(CatalogPage, None)
    ensures Route(ids, ids.cart, registered) == Dispatch(CartPage, None)
    ensures Route(ids, ids.aboutUs, registered) == Dispatch(AboutUsPage, None)
  {
    var f := ids.Fixed();
    assert f[0] != f[3] && f[0] != f[5] && f[0] != f[6];
    assert f[1] != f[3] && f[1] != f[5] && f[1] != f[6];
    assert f[2] != f[3] && f[2] != f[5] && f[2] != f[6];
    assert f[3] != f[5] && f[3] != f[6] && f[4] != f[5] && f[4] != f[6] && f[5] != f[6];
  }

  /** Login and registration are replaced by the home page, with a jump to
      `#`, once the registration marker is stored; the profile page needs
      the marker and otherwise shows the login page and replaces the
      address with the login route. */
  lemma RouteGuardedPages(ids: PageIds, registered: bool)
    requires ids.Valid()
    ensures Route(ids, ids.login, registered)
         == if registered then Dispatch(HomePage, Some(AssignHref("#"))) else Dispatch(LoginPage, None)
    ensures Route(ids, ids.registration, registered)
         == if registered then Dispatch(HomePage, Some(AssignHref("#"))) else Dispatch(RegistrationPage, None)
    ensures Route(ids, ids.myProfile, registered)
         == if registered then Dispatch(MyProfilePage, None)
            else Dispatch(LoginPage, Some(ReplaceLocation("#" + ids.login)))
  {
    var f := ids.Fixed();
    assert f[0] != f[1] && f[0] != f[2] && f[0] != f[4];
    assert f[1] != f[2] && f[1] != f[4] && f[2] != f[4] && f[3] != f[4];
  }

  /** The profile page's redirect is stable: following it while not
      registered lands on the login page without a further navigation. */
  lemma ProfileRedirectSettles(ids: PageIds)
    requires ids.Valid()
    ensures Route(ids, ids.myProfile, false).redirect == Some(ReplaceLocation("#" + ids.login))
    ensures HandleHashChange(ids, "#" + ids.login, false) == Dispatch(LoginPage, None)
  {
    RouteGuardedPages(ids, false);
    assert RouteOfHash("#" + ids.login) == ids.login;
  }

  /** The id of a product route is everything after the first `/`. */
  lemma {:induction false} SecondSegmentAfterPrefix(prefix: string, id: string)
    requires '/' !in prefix && '/' !in id
    ensures '/' in prefix + "/" + id
    ensures SecondSegment(prefix + "/" + id) == id
  {
    var s := prefix + "/" + id;
    assert s[|prefix|] == '/';
    Text.SplitAtFirst(prefix, '/', id);
    Text.SplitWithoutSeparator(id, '/');
  }

  /** `product/` followed by a non-empty id over `[\w-]` matches the
      product pattern. */
  lemma {:induction false} ProductRouteOfId(id: string)
    requires id != [] && forall k :: 0 <= k < |id| ==> IsWordOrDash(id[k])
    ensures IsProductRoute(ProductPrefix + id)
    ensures ProductPrefix + id == ProductSegment + "/" + id
  {
    var s := ProductPrefix + id;
    assert s[..|ProductPrefix|] == ProductPrefix;
    assert forall k :: |ProductPrefix| <= k < |s| ==> s[k] == id[k - |ProductPrefix|];
  }

  /** `category/` followed by a non-empty id over `[a-f0-9-]` matches the
      category pattern and not the product pattern. */
  lemma {:induction false} CategoryRouteOfId(id: string)
    requires id != [] && forall k :: 0 <= k < |id| ==> IsLowerHexOrDash(id[k])
    ensures IsCategoryRoute(CategoryPrefix + id)
    ensures !IsProductRoute(CategoryPrefix + id)
    ensures CategoryPrefix + id == CategorySegment + "/" + id
  {
    var s := CategoryPrefix + id;
    assert s[..|CategoryPrefix|] == CategoryPrefix;
    assert forall k :: |CategoryPrefix| <= k < |s| ==> s[k] == id[k - |CategoryPrefix|];
    assert s[..|ProductPrefix|][0] == 'c';
  }

  /** A non-empty product id over `[\w-]` opens that product's details. */
  lemma ProductRouteOpensDetails(ids: PageIds, id: string, registered: bool)
    requires ids.Valid()
    requires id != [] && forall k :: 0 <= k < |id| ==> IsWordOrDash(id[k])
    ensures Route(ids, ProductPrefix + id, registered) == Dispatch(ProductDetailsPage(id), None)
  {
    ProductRouteOfId(id);
    assert ProductPrefix + id !in ids.Fixed();
    assert forall k :: 0 <= k < |id| ==> id[k] != '/';
    SecondSegmentAfterPrefix(ProductSegment, id);
  }

  /** A non-empty category id over lower-case `[a-f0-9-]` opens that
      category. */
  lemma CategoryRouteOpensCategory(ids: PageIds, id: string, registered: bool)
    requires ids.Valid()
    requires id != [] && forall k :: 0 <= k < |id| ==> IsLowerHexOrDash(id[k])
    ensures Route(ids, CategoryPrefix + id, registered) == Dispatch(CategoryPage(id), None)
  {
    CategoryRouteOfId(id);
    assert CategoryPrefix + id !in ids.Fixed();
    assert forall k :: 0 <= k < |id| ==> id[k] != '/';
    SecondSegmentAfterPrefix(CategorySegment, id);
  }

  /** The id read off a product route is the non-empty, separator-free
      text after the prefix. */
  lemma {:induction false} ProductIdOfRoute(pageID: string)
    requires IsProductRoute(pageID)
    ensures '/' in pageID
    ensures var id := SecondSegment(pageID);
      && id != [] && '/' !in id && ProductPrefix + id == pageID
      && forall k :: 0 <= k < |id| ==> IsWordOrDash(id[k])
  {
    var id := pageID[|ProductPrefix|..];
    assert pageID == ProductSegment + "/" + id;
    assert forall k :: 0 <= k < |id| ==> id[k] == pageID[k + |ProductPrefix|];
    assert forall k :: 0 <= k < |id| ==> id[k] != '/';
    SecondSegmentAfterPrefix(ProductSegment, id);
  }

  /** The id read off a category route is the non-empty, separator-free
      text after the prefix. */
  lemma {:induction false} CategoryIdOfRoute(pageID: string)
    requires IsCategoryRoute(pageID)
    ensures '/' in pageID
    ensures var id := SecondSegment(pageID);
      && id != [] && '/' !in id && CategoryPrefix + id == pageID
      && forall k :: 0 <= k < |id| ==> IsLowerHexOrDash(id[k])
  {
    var id := pageID[|CategoryPrefix|..];
    assert pageID == CategorySegment + "/" + id;
    assert forall k :: 0 <= k < |id| ==> id[k] == pageID[k + |CategoryPrefix|];
    assert forall k :: 0 <= k < |id| ==> id[k] != '/';
    SecondSegmentAfterPrefix(CategorySegment, id);
  }

  /** Whatever product id the dispatcher extracts is non-empty, free of
      separators, and rebuilds the route exactly. */
  lemma ProductRouteRoundTrip(ids: PageIds, pageID: string, registered: bool)
    ensures Route(ids, pageID, registered).page.ProductDetailsPage? ==>
      var id := Route(ids, pageID, registered).page.productId;
      && id != [] && '/' !in id && ProductPrefix + id == pageID
      && forall k :: 0 <= k < |id| ==> IsWordOrDash(id[k])
  {
    if IsProductRoute(pageID) {
      ProductIdOfRoute(pageID);
    }
  }

  /** Whatever category id the dispatcher extracts is non-empty, free of
      separators, and rebuilds the route exactly. */
  lemma CategoryRouteRoundTrip(ids: PageIds, pageID: string, registered: bool)
    ensures Route(ids, pageID, registered).page.CategoryPage? ==>
      var id := Route(ids, pageID, registered).page.categoryId;
      && id != [] && '/' !in id && CategoryPrefix + id == pageID
      && forall k :: 0 <= k < |id| ==> IsLowerHexOrDash(id[k])
  {
    if IsCategoryRoute(pageID) {
      CategoryIdOfRoute(pageID);
    }
  }

  /** The not-found page is shown exactly for routes that are neither a fixed
      route nor match a dynamic pattern. */
  lemma NotFoundExactly(ids: PageIds, pageID: string, registered: bool)
    ensures Route(ids, pageID, registered).page == NotFoundPage
        <==> pageID !in ids.Fixed() && !IsProductRoute(pageID) && !IsCategoryRoute(pageID)
  {
  }

  /** Category ids are matched case-sensitively: one upper-case character
      makes a category route miss the pattern. */
  lemma UpperCaseCategoryIdRejected(id: string, k: nat)
    requires k < |id| && 'A' <= id[k] <= 'Z'
    ensures !IsCategoryRoute(CategoryPrefix + id)
  {
    var s := CategoryPrefix + id;
    assert s[|CategoryPrefix| + k] == id[k];
  }
}

=== FILE: text.dfy ===
/** The JavaScript string operations the storefront relies on: the `\s`
    character class and `trim`, `split` on one character, and the decimal
    text of page numbers (`${i}` and `Number(...)`). */
module Text {

  /** JavaScript's `\s` class, which is also the set `String.prototype.trim`
      removes: the WhiteSpace and LineTerminator code points of ECMA-262
      (sections 12.2 and 12.3). */
  predicate IsWhitespace(c: char) {
    || c == '\t' || c == '\n' || c == '\U{000B}' || c == '\U{000C}' || c == '\r'
    || c == ' ' || c == '\U{00A0}' || c == '\U{1680}'
    || ('\U{2000}' <= c <= '\U{200A}')
    || c == '\U{2028}' || c == '\U{2029}' || c == '\U{202F}' || c == '\U{205F}'
    || c == '\U{3000}' || c == '\U{FEFF}'
  }

  predicate AllWhitespace(s: string) {
    forall k :: 0 <= k < |s| ==> IsWhitespace(s[k])
  }

  /** Neither end of `r` is whitespace. */
  predicate IsTrimmed(r: string) {
    r == [] || (!IsWhitespace(r[0]) && !IsWhitespace(r[|r| - 1]))
  }

  /** `s` is `r` with only whitespace before it (the first `i` characters)
      and only whitespace after it. */
  predicate PaddedAt(s: string, r: string, i: nat) {
    && i + |r| <= |s|
    && s[i..i + |r|] == r
    && AllWhitespace(s[..i])
    && AllWhitespace(s[i + |r|..])
  }

  /** Length of the whitespace run at the front of `s`. */
  function LeadingWhitespace(s: string): (n: nat)
    ensures n <= |s|
    ensures AllWhitespace(s[..n])
    ensures n < |s| ==> !IsWhitespace(s[n])
  {
    if |s| == 0 || !IsWhitespace(s[0]) then 0
    else
      var m := LeadingWhitespace(s[1..]);
      assert forall k :: 1 <= k < 1 + m ==> s[k] == s[1..][k - 1];
      1 + m
  }

  /** Length of the whitespace run at the end of `s`. */
  function TrailingWhitespace(s: string): (n: nat)
    ensures n <= |s|
    ensures AllWhitespace(s[|s| - n..])
    ensures n < |s| ==> !IsWhitespace(s[|s| - n - 1])
  {
    if |s| == 0 || !IsWhitespace(s[|s| - 1]) then 0
    else
      var m := TrailingWhitespace(s[..|s| - 1]);
      assert forall k :: |s| - 1 - m <= k < |s| - 1 ==> s[k] == s[..|s| - 1][k];
      1 + m
  }

  /** `String.prototype.trim`. */
  function Trim(s: string): (r: string)
    ensures IsTrimmed(r)
    ensures PaddedAt(s, r, LeadingWhitespace(s))
  {
    var i := LeadingWhitespace(s);
    var t := s[i..];
    var n := TrailingWhitespace(t);
    var r := t[..|t| - n];
    assert r == s[i..i + |r|];
    assert t[|t| - n..] == s[i + |r|..];
    assert r != [] ==> r[0] == s[i] && r[|r| - 1] == t[|t| - n - 1];
    r
  }

  /** The leading run ends exactly where the first non-whitespace
      character stands. */
  lemma {:induction false} LeadingWhitespaceAt(s: string, i: nat)
    requires i <= |s|
    requires forall k :: 0 <= k < i ==> IsWhitespace(s[k])
    requires i < |s| ==> !IsWhitespace(s[i])
    ensures LeadingWhitespace(s) == i
    decreases |s|
  {
    if 0 < i {
      var u := s[1..];
      assert forall k :: 0 <= k < i - 1 ==> u[k] == s[k + 1];
      assert i - 1 < |u| ==> u[i - 1] == s[i];
      LeadingWhitespaceAt(u, i - 1);
    }
  }

  /** The trailing run starts right after the last non-whitespace
      character. */
  lemma {:induction false} TrailingWhitespaceAt(s: string, e: nat)
    requires e <= |s|
    requires forall k :: e <= k < |s| ==> IsWhitespace(s[k])
    requires 0 < e ==> !IsWhitespace(s[e - 1])
    ensures TrailingWhitespace(s) == |s| - e
    decreases |s|
  {
    if e < |s| {
      var u := s[..|s| - 1];
      assert forall k :: e <= k < |u| ==> u[k] == s[k];
      assert 0 < e ==> u[e - 1] == s[e - 1];
      TrailingWhitespaceAt(u, e);
    }
  }

  lemma {:induction false} WhitespacePrefix(s: string, i: nat)
    requires i <= |s| && AllWhitespace(s[..i])
    ensures forall k :: 0 <= k < i ==> IsWhitespace(s[k])
  {
    forall k | 0 <= k < i ensures IsWhitespace(s[k]) { assert s[k] == s[..i][k]; }
  }

  lemma {:induction false} WhitespaceSuffix(s: string, e: nat)
    requires e <= |s| && AllWhitespace(s[e..])
    ensures forall k :: e <= k < |s| ==> IsWhitespace(s[k])
  {
    forall k | e <= k < |s| ensures IsWhitespace(s[k]) { assert s[k] == s[e..][k - e]; }
  }

  /** Trimming has exactly one possible result: whatever non-whitespace-ended
      core `r` the input is padded around, `Trim` returns that core. */
  lemma {:induction false} TrimUnique(s: string, r: string, i: nat)
    requires IsTrimmed(r)
    requires PaddedAt(s, r, i)
    ensures Trim(s) == r
  {
    var e := i + |r|;
    WhitespacePrefix(s, i);
    WhitespaceSuffix(s, e);
    if r == [] {
      LeadingWhitespaceAt(s, |s|);
    } else {
      assert s[i] == r[0];
      LeadingWhitespaceAt(s, i);
      var t := s[i..];
      assert t[..|r|] == r;
      assert t[|r| - 1] == r[|r| - 1];
      assert forall k :: |r| <= k < |t| ==> t[k] == s[i + k];
      TrailingWhitespaceAt(t, |r|);
    }
  }

  /** Whitespace around an already trimmed value is all `Trim` removes. */
  lemma {:induction false} TrimPadded(pre: string, v: string, post: string)
    requires AllWhitespace(pre) && AllWhitespace(post) && IsTrimmed(v)
    ensures Trim(pre + v + post) == v
  {
    var s := pre + v + post;
    assert s[..|pre|] == pre;
    assert s[|pre|..|pre| + |v|] == v;
    assert s[|pre| + |v|..] == post;
    TrimUnique(s, v, |pre|);
  }

  lemma {:induction false} AllWhitespaceConcat(a: string, b: string)
    requires AllWhitespace(a) && AllWhitespace(b)
    ensures AllWhitespace(a + b)
  {
    assert forall k :: |a| <= k < |a + b| ==> (a + b)[k] == b[k - |a|];
  }

  /** The two sequence identities `TrimIgnoresPadding` needs, kept as lemmas
      of their own: stated inline, they make that proof too costly for the
      solver. */
  lemma {:induction false} SplitAround(s: string, r: string, i: nat)
    requires i + |r| <= |s| && s[i..i + |r|] == r
    ensures s == s[..i] + r + s[i + |r|..]
  {
  }

  lemma {:induction false} Regroup(a: string, b: string, c: string, d: string, e: string)
    ensures a + (b + c + d) + e == (a + b) + c + (d + e)
  {
  }

  /** Whitespace added around any value leaves its trimmed form unchanged. */
  lemma {:induction false} TrimIgnoresPadding(pre: string, value: string, post: string)
    requires AllWhitespace(pre) && AllWhitespace(post)
    ensures Trim(pre + value + post) == Trim(value)
  {
    var core := Trim(value);
    var l := LeadingWhitespace(value);
    var front, back := value[..l], value[l + |core|..];
    SplitAround(value, core, l);
    AllWhitespaceConcat(pre, front);
    AllWhitespaceConcat(back, post);
    Regroup(pre, front, core, back, post);
    TrimPadded(pre + front, core, back + post);
  }

  /** The inverse of `Split`: the pieces with one separator between
      neighbours. */
  function Join(parts: seq<string>, sep: char): string
    requires |parts| >= 1
  {
    if |parts| == 1 then parts[0] else parts[0] + [sep] + Join(parts[1..], sep)
  }

  /** `s.split(sep)` for a one-character separator: the separator-free
      pieces between separators, in order, empty pieces included. */
  function Split(s: string, sep: char): (parts: seq<string>)
    ensures |parts| >= 1
    ensures forall k :: 0 <= k < |parts| ==> sep !in parts[k]
    ensures Join(parts, sep) == s
    ensures |parts| == 1 <==> sep !in s
  {
    if |s| == 0 then [""]
    else
      var rest := Split(s[1..], sep);
      if s[0] == sep then
        var parts := [""] + rest;
        assert parts[1..] == rest;
        assert s == [] + [sep] + s[1..];
        parts
      else
        var parts := [[s[0]] + rest[0]] + rest[1..];
        JoinPrepend(s[0], rest, sep);
        assert s == [s[0]] + s[1..];
        assert forall k :: 1 <= k < |parts| ==> parts[k] == rest[k];
        parts
  }

  /** Putting a character before the first piece puts it before the join. */
  lemma {:induction false} JoinPrepend(c: char, rest: seq<string>, sep: char)
    requires |rest| >= 1
    ensures Join([[c] + rest[0]] + rest[1..], sep) == [c] + Join(rest, sep)
  {
    var parts := [[c] + rest[0]] + rest[1..];
    if |rest| > 1 {
      assert parts[1..] == rest[1..];
    }
  }

  lemma {:induction false} SplitWithoutSeparator(s: string, sep: char)
    requires sep !in s
    ensures Split(s, sep) == [s]
  {
  }

  /** Splitting at the first separator peels off the piece before it. */
  lemma {:induction false} SplitAtFirst(a: string, sep: char, b: string)
    requires sep !in a
    ensures Split(a + [sep] + b, sep) == [a] + Split(b, sep)
  {
    var s := a + [sep] + b;
    if a == [] {
      assert s[1..] == b;
    } else {
      assert s[1..] == a[1..] + [sep] + b;
      SplitAtFirst(a[1..], sep, b);
      assert [a[0]] + a[1..] == a;
    }
  }

  /** `Split` undoes `Join` whenever no piece contains the separator. */
  lemma {:induction false} SplitJoin(parts: seq<string>, sep: char)
    requires |parts| >= 1
    requires forall k :: 0 <= k < |parts| ==> sep !in parts[k]
    ensures Split(Join(parts, sep), sep) == parts
  {
    if |parts| == 1 {
      SplitWithoutSeparator(parts[0], sep);
    } else {
      SplitJoin(parts[1..], sep);
      SplitAtFirst(parts[0], sep, Join(parts[1..], sep));
    }
  }

  predicate IsDigit(c: char) {
    '0' <= c <= '9'
  }

  predicate AllDigits(s: string) {
    forall k :: 0 <= k < |s| ==> IsDigit(s[k])
  }

  function DigitChar(d: nat): (c: char)
    requires d < 10
    ensures IsDigit(c)
  {
    "0123456789"[d]
  }

  function DigitValue(c: char): nat
    requires IsDigit(c)
  {
    (c as int - '0' as int) as nat
  }

  /** The decimal text of `n`, as a template literal `${n}` writes it. */
  function ShowNat(n: nat): (s: string)
    ensures |s| >= 1 && AllDigits(s)
    ensures |s| > 1 ==> s[0] != '0'
  {
    if n < 10 then [DigitChar(n)]
    else
      var prefix := ShowNat(n / 10);
      prefix + [DigitChar(n % 10)]
  }

  /** `Number(s)` for a string of decimal digits (the empty string reads as 0). */
  function ParseDigits(s: string): nat
    requires AllDigits(s)
  {
    if |s| == 0 then 0 else 10 * ParseDigits(s[..|s| - 1]) + DigitValue(s[|s| - 1])
  }

  /** Reading back the decimal text of a number gives that number. */
  lemma {:induction false} ParseShowNat(n: nat)
    ensures ParseDigits(ShowNat(n)) == n
  {
    var s := ShowNat(n);
    if n >= 10 {
      assert s[..|s| - 1] == ShowNat(n / 10);
      ParseShowNat(n / 10);
    }
  }
}

=== FILE: wrappers.dfy ===
/** Optional values and success/failure results, standing in for JavaScript's
    `undefined` and for rejected promises. */
module Wrappers {

  datatype Option<+T> = None | Some(value: T)

  datatype Result<+T, +E> = Ok(value: T) | Err(error: E)
}
